=== FILE: README.md ===
# Chat server entity model, in Dafny

This project models the in-memory data layer of the CodeU chat server,
`codeu.chat.server.Model`. The model holds users, conversations and messages.
Each kind is kept in three stores at once: by identifier, by creation time and
by display text. The model also keeps a "current user generation" marker,
issued by a linear identifier generator. At construction it rebuilds the user
stores from the persisted `USER` table.

The model is written in a functional style. Every entity is an immutable
datatype. The aggregate `ServerModel.Model` is a record of three `Indices`, one
per kind, each holding three stores, plus the generator and the generation
marker. Each Java `add`/`restoreUser` call becomes a pure function from the old
model to the new one. Construction becomes a fold over the rows read from the
table.

Files, one module each:

- `wrappers.dfy` (`Wrappers`): `Option` stands for a nullable reference.
  `Result` stands for an operation that may throw.
- `uuids.dfy` (`Uuids`): the recursive identifier `Uuid(root, id)` and the
  comparator `UUID_COMPARE`.
- `entities.dfy` (`Entities`): `Time`, `User`, `Conversation` and `Message`.
- `comparators.dfy` (`Comparators`): the id, time and case-insensitive text
  orderings. It also holds the total-preorder law that each of them obeys.
- `sqlliterals.dfy` (`SqlLiterals`): how a quoted SQL string literal reads
  back, and the quote doubling that lets any text survive it.
- `stores.dfy` (`Stores`): the ordered multi-index store, seen through its
  contract. It is a sequence of key/value entries in comparator order, and
  duplicate keys are allowed.
- `generators.dfy` (`Generators`): the linear identifier generator.
- `model.dfy` (`ServerModel`): the aggregate and its operations `add(User)`,
  `restoreUser`, `add(Conversation)`, `add(Message)` and `userGeneration()`.
- `startup.dfy` (`Startup`): the constructor's replay of the stored user rows.

Abstractions:

- The SQL database is reduced to two things. The rows read at start-up are a
  `Table` (missing, or a sequence of `Row`s). The outcome of the row write in
  `add(User)` is a `WriteOutcome` parameter.
- `Uuid.parse` is not part of this model. Replay takes it as a parameter
  `parse: string -> Result<Uuid, ParseError>`. `Failure(NotAUuid)` means it
  threw an `IOException`. `Failure(UncheckedException)` means it threw
  anything else.
- `Uuid.toString` is not part of this model either. The text stored for an id
  is a parameter of the lemmas that need it.
- `System.exit` is not a return value in the source. Here it is an outcome
  value: `ExitedAfterWriteFailure` for `add(User)`, `Failure` for construction.

## Error paths the model follows

- **A failed write in `add(User)`.** The method first advances the
  generation (`Model.java:141`). If anything in the write throws, it calls
  `System.exit(0)` (`Model.java:154-157`) before touching any user store.
  `AddUser` returns `ExitedAfterWriteFailure(m)`, where `m` is that
  intermediate state.
- **Stored ids that cannot be read.** The trim `substring(6, length - 1)`
  (`Model.java:105`) runs before the row's own `try`, which starts at
  `Model.java:107`. So a stored id shorter than 7 characters throws outside
  that `try`, whatever the exception's type, and the constructor's outer
  handler exits (`Model.java:130-133`). Inside the `try`, only an
  `IOException` is caught (`Model.java:111`): such a row is skipped. Any
  other exception thrown by `Uuid.parse` also reaches the outer handler.
  `ReplayRow` aborts with `StoredIdTooShort` or `IdParseCrashed` in these
  two cases. `UnreadableRowAbortsReplay` proves that a single such row makes
  start-up fail, wherever it stands.

## Model

| member | source | states |
|---|---|---|
| `Uuids.Compare` | src/codeu/chat/server/Model.java:37-51 | The comparator returns -1, 0 or 1. It returns 0 exactly when the two identifiers are equal, including null against null. Null sorts strictly below any non-null identifier, on either side. Two identifiers with different numeric ids are ordered by id, whatever their roots. |
| `Uuids.CompareAntisymmetric` | src/codeu/chat/server/Model.java:42-49 | Swapping the arguments negates the result, for all pairs including null ones. |
| `Uuids.CompareTransitive` | src/codeu/chat/server/Model.java:48-49 | If a ≤ b and b ≤ c, then a ≤ c. The proof follows the recursion into the roots when ids tie. |
| `Uuids.CompareIsLexicographicOnPaths` | src/codeu/chat/server/Model.java:48-49 | The comparator equals the lexicographic order of lineage paths, where a path is the own id, then the parent's id, and so on, and null is the empty path. So the id is consulted first and the root only on a tie. |
| `Uuids.PathInjective` | src/codeu/chat/server/Model.java:48-49 | Two identifiers with the same lineage path are equal, so the path order is a faithful reference for identifiers. |
| `Comparators.IdOrder` | src/codeu/chat/server/Model.java:62 | On the non-null identifiers of a by-id store, `UUID_COMPARE` returns 0 exactly for equal identifiers. Identifiers with different ids are ordered by id. |
| `Comparators.TimeOrder` | src/codeu/chat/server/Model.java:53-58 | `TIME_COMPARE` is negative exactly when the first time is earlier in milliseconds, and 0 exactly when the times are equal. |
| `Comparators.TextOrder` | src/codeu/chat/server/Model.java:60 | If one string matches the start of the other after case folding, the result is the difference of their lengths. So a shorter such string sorts first, and two strings of equal length that match compare equal. |
| `Comparators.TextOrderFirstMismatch` | src/codeu/chat/server/Model.java:60 | When the folded characters first differ at position `i`, the result is the difference of those two folded characters, whatever the lengths: the first mismatch decides the order lexicographically. |
| `Comparators.IdOrderIsTotalPreorder` | src/codeu/chat/server/Model.java:62 | `UUID_COMPARE` on the keys of a by-id store is reflexive at zero, antisymmetric in sign and transitive. |
| `Comparators.TimeOrderIsTotalPreorder` | src/codeu/chat/server/Model.java:53-58 | `TIME_COMPARE`, which compares creation times in milliseconds, is a total preorder. |
| `Comparators.TextOrderIsTotalPreorder` | src/codeu/chat/server/Model.java:60 | The case-insensitive text comparator is reflexive at zero, antisymmetric in sign and transitive. |
| `Comparators.TextOrderZeroIffSameIgnoringCase` | src/codeu/chat/server/Model.java:60 | Two strings compare equal under the text order exactly when they have the same length and agree character by character after case folding. |
| `Comparators.TextOrderExamples` | src/codeu/chat/server/Model.java:60 | "alice" sorts before "Bob", and "Bob" ties with "BOB". |
| `Stores.Insert` | src/codeu/chat/server/Model.java:159-161 | A store insert adds exactly one entry `(k, v)` and never rejects a duplicate key. The multiset of stored values gains exactly `v`. |
| `Stores.InsertKeepsOthersInOrder` | src/codeu/chat/server/Model.java:159-161 | After an insert, the new entry sits at one position, and removing it gives back the old entries in their old order. |
| `Stores.OrderedPairwise` | src/codeu/chat/server/Model.java:62-72 | A store is in traversal order exactly when every key compares at most every later key. |
| `Stores.InsertKeepsSorted` | src/codeu/chat/server/Model.java:62-72 | A store built with a total-preorder comparator stays in that comparator's traversal order after an insert. |
| `Stores.InsertKeepsKeyed` | src/codeu/chat/server/Model.java:159-161 | If every entry is filed under its value's key, that still holds after inserting a value under its own key. |
| `Generators.Make` | src/codeu/chat/server/Model.java:74-75 | `make()` succeeds exactly while the counter has not passed the end of its range. It issues the identifier `(root, counter)` and moves the counter on by one. |
| `Generators.IssueConsecutive` | src/codeu/chat/server/Model.java:74 | `n` successive `make()` calls succeed exactly when `n` ids remain in the range. They issue the consecutive ids `next, next+1, …` under the generator's root. |
| `Generators.IssuedAreDistinctAndAscending` | src/codeu/chat/server/Model.java:74 | The identifiers one generator issues are pairwise distinct. Each compares strictly above every earlier one under `UUID_COMPARE`. |
| `Generators.SingleIdRangeExhausts` | src/codeu/chat/server/Model.java:74 | A generator over the range [1, 1] issues one identifier and refuses the second. |
| `ServerModel.Index` | src/codeu/chat/server/Model.java:159-161 | Indexing an entity adds exactly one entry to each of its kind's three stores. The entries are keyed by id, creation time and text. The value multisets of all three stores gain exactly that entity. |
| `ServerModel.IndexKeepsConsistent` | src/codeu/chat/server/Model.java:62-72 | Indexing an entity under its own keys keeps the three stores of its kind in lockstep. They hold the same values, each filed under its own key, and each store stays in its comparator's order. |
| `ServerModel.Initial` | src/codeu/chat/server/Model.java:74-75 | After the field initialisers all nine stores are empty. The generation marker is the first identifier of the null-rooted lineage, `(null, 1)`. |
| `ServerModel.InitialIsValid` | src/codeu/chat/server/Model.java:62-75 | The freshly initialised model satisfies the invariant: the stores are consistent and the marker is the generator's last issued id. |
| `ServerModel.NextGeneration` | src/codeu/chat/server/Model.java:141 | `currentUserGeneration = userGenerations.make()` succeeds exactly while ids remain. It sets the marker to the next id and advances the generator by one. It changes nothing else. |
| `ServerModel.IndexUser` | src/codeu/chat/server/Model.java:159-161 | Filing a user adds one entry to each user store, keyed by `user.id`, `user.creation` and `user.name`. Conversations, messages and the generation are unchanged. |
| `ServerModel.AddUser` | src/codeu/chat/server/Model.java:140-162 | If the generator is exhausted, the call fails and changes nothing. Otherwise it always advances the generation exactly once. A failed write then exits with every store unchanged. A successful write files the user once in each user store, keyed by id, creation time and name, and leaves conversations and messages alone. |
| `ServerModel.RestoreUser` | src/codeu/chat/server/Model.java:164-169 | `restoreUser` succeeds exactly while ids remain. It advances the generation once and files the user once in each user store. No write is involved. |
| `ServerModel.RestoreIsAddWithoutWrite` | src/codeu/chat/server/Model.java:140-169 | `restoreUser` ends in exactly the state a successfully written `add(User)` of the same user ends in, and it fails exactly when that call fails. |
| `ServerModel.AddConversation` | src/codeu/chat/server/Model.java:187-191 | `add(Conversation)` adds one entry to each conversation store, keyed by id, creation time and title. The user stores, the message stores, the generator and the marker are unchanged. |
| `ServerModel.AddMessage` | src/codeu/chat/server/Model.java:205-209 | `add(Message)` adds one entry to each message store, keyed by id, creation time and content. The user stores, the conversation stores, the generator and the marker are unchanged. |
| `ServerModel.RestoreUserKeepsValid` | src/codeu/chat/server/Model.java:164-169 | A restore keeps the invariant. It moves the marker to the next id and adds exactly one user by id. |
| `ServerModel.AddUserKeepsValid` | src/codeu/chat/server/Model.java:140-162 | A successful `add(User)` keeps the invariant. It moves the marker to the next id and adds exactly one user by id. |
| `ServerModel.AddConversationKeepsValid` | src/codeu/chat/server/Model.java:187-191 | `add(Conversation)` keeps the invariant. |
| `ServerModel.AddMessageKeepsValid` | src/codeu/chat/server/Model.java:205-209 | `add(Message)` keeps the invariant. |
| `ServerModel.ApplyKeepsValid` | src/codeu/chat/server/Model.java:140-209 | Any single mutating call that returns keeps the invariant. The marker and the user count advance by one for a user call and stay put for any other call. |
| `ServerModel.RunKeepsValid` | src/codeu/chat/server/Model.java:140-209 | Take any sequence of calls that all return normally. Afterwards the stores of every kind are still in lockstep, and the marker has advanced by the number of user calls. The by-id user store has grown by exactly that number. |
| `ServerModel.GenerationCountsUserCalls` | src/codeu/chat/server/Model.java:183-185 | From the initial state (construction with a missing or empty table) and any sequence of calls, `userGeneration()` is the id from the most recent `add(User)` or `restoreUser`, or from the initial `make()` when there was none. That id is `(null, 1 + number of user calls)`. A user is in the by-id store exactly when it is in both the by-time and by-name stores. |
| `Startup.ReplayThenRunCountsUserCalls` | src/codeu/chat/server/Model.java:183-185 | After start-up from a stored table and any sequence of calls that returns normally, `userGeneration()` is `(null, 1 + restored rows + user calls)`: the replay's restores and the later user calls are counted together. |
| `ServerModel.UserGeneration` | src/codeu/chat/server/Model.java:183-185 | In a valid model, `userGeneration()` is the identifier the generator issued last, in the null-rooted lineage. |
| `ServerModel.TimeTraversalExample` | src/codeu/chat/server/Model.java:63 | Users created at 300, 100 and 200 ms, inserted in that order, are traversed by time as 100, 200, 300. |
| `Startup.TrimStoredId` | src/codeu/chat/server/Model.java:105 | Trimming the stored id succeeds exactly when the text has at least 7 characters. Shorter texts are where `substring(6, length - 1)` throws. |
| `Startup.TrimUndoesWrapping` | src/codeu/chat/server/Model.java:105 | Trimming gives back the body of any text made of a 6-character prefix, the body and 1 closing character. |
| `Startup.ReplayRow` | src/codeu/chat/server/Model.java:103-113 | One row aborts construction for a reason other than an exhausted generator exactly when it cannot be read: an id text shorter than 7 characters aborts with `StoredIdTooShort`, and a parse that throws anything but an `IOException` aborts with `IdParseCrashed`. A parse that throws an `IOException` skips the row and leaves the model as it was. A row whose id trims and parses is restored: it continues with the model `restoreUser` leaves (`Model.java:110`), or aborts with `GenerationLimitReached` when the generator is exhausted. |
| `Startup.Replay` | src/codeu/chat/server/Model.java:101-114 | When the loop over the rows exits for a reason other than the generator, the reason names the id text of a row in the table that cannot be read. |
| `Startup.ReplayIsRestoreFold` | src/codeu/chat/server/Model.java:101-114 | When every row can be read, replay equals `restoreUser` folded over the users of the rows whose id parses, in row order. Rows whose parse throws an `IOException` are skipped. Replay fails only if the generator is exhausted. |
| `Startup.UnreadableRowAbortsReplay` | src/codeu/chat/server/Model.java:105-113 | One row that cannot be read, anywhere in the table, makes construction fail. Its id text is too short to trim, or its parse throws something other than an `IOException`. |
| `Startup.ReplaySuccessMeansReadable` | src/codeu/chat/server/Model.java:105-113 | If replay succeeds, every row could be read: every stored id had at least 7 characters, and no parse threw anything but an `IOException`. |
| `Startup.ReplayedModelIsValid` | src/codeu/chat/server/Model.java:95-114 | A model rebuilt from a table satisfies the invariant and holds one user per parseable row. Its `userGeneration()` is `(null, 1 + that count)`. |
| `Startup.Open` | src/codeu/chat/server/Model.java:81-134 | Every model that construction returns satisfies the invariant. From a missing table, where only the table is created, it is the initial model. |
| `Startup.RestoreAllIsRun` | src/codeu/chat/server/Model.java:164-169 | Restoring a sequence of users one by one is the same as running the corresponding `restoreUser` calls. |
| `SqlLiterals.EscapedReadsBack` | src/codeu/chat/server/Model.java:149-150 | A text with every quote doubled, written between quotes and followed by anything but another quote, reads back as exactly that text, and reading resumes right after its closing quote. |
| `SqlLiterals.EscapedFieldReadsBack` | src/codeu/chat/server/Model.java:149-150 | An escaped field of the insert statement reads back as the original text. |
| `Startup.StoredRow` | src/codeu/chat/server/Model.java:149-150 | The row the insert statement stores, once its texts are escaped, holds the id text, the creation time in milliseconds and the name exactly as given. |
| `Startup.AsWrittenStoresRowWithoutQuotes` | src/codeu/chat/server/Model.java:149-150 | As written, the statement stores that same row whenever neither the name nor the id text contains a quote. |
| `Startup.AsWrittenStoresRowsWithoutQuotes` | src/codeu/chat/server/Model.java:149-150 | For a sequence of users none of whose names or id texts contain a quote, the statements as written store exactly the rows replay is proved against. |
| `Startup.AsWrittenAltersDoubledQuote` | src/codeu/chat/server/Model.java:149-150 | As written, a user named `a''b` is stored under the name `a'b`. |
| `Startup.AsWrittenBreaksOnLoneQuote` | src/codeu/chat/server/Model.java:149-150 | As written, the name `x'y` closes its literal early, so the statement is not the insert of that user's row. |
| `Startup.ReplayStoredRow` | src/codeu/chat/server/Model.java:103-110 | The row stored for a user restores that same user on replay, provided the stored id text trims and parses back to the user's id. |
| `Startup.RunAddsFirstStep` | src/codeu/chat/server/Model.java:140-169 | The first successful `add(User)` of a sequence acts as a restore of that user. |
| `Startup.ReplayStoredFirstStep` | src/codeu/chat/server/Model.java:101-114 | Replaying a table of written rows first restores the first user, then replays the rest. |
| `Startup.ReplayRebuildsAddedUsers` | src/codeu/chat/server/Model.java:101-114 | Take the rows stored for a sequence of successful `add(User)` calls. If their id texts trim and parse back, replaying them rebuilds exactly the model those calls produced: the same stores and the same generation. It fails exactly when the calls would. The rows are those of the statement with quotes doubled. For the statement as written they are the same rows when no name or id text contains a quote (see "Findings"). |

## Left out

- JDBC/SQLite plumbing is left out: driver loading, connections, metadata lookup, table creation, the SQL `SELECT` and `CREATE TABLE` text and `executeUpdate` (`Model.java:82-99`, `115-129`, `143-153`). It is foreign I/O. It appears only as a `Table` of rows and a `WriteOutcome`. Of the insert statement (`Model.java:149-150`) only its `VALUES` literals are modelled, to say which row it stores. A connection or creation failure at start-up, which also exits, is not modelled separately.
- Console output (`System.out`/`System.err`) is left out. `System.exit` appears only as the outcome value described above.
- The empty `executeSQL` stub (`Model.java:136-138`) does nothing, so it is not modelled.
- The accessors `userById()` … `messageByText()` return the stores themselves. In the model they are the fields of `Indices`. The read-side `StoreAccessor` queries (lookup by key, ranges, first/last) are not part of this model.
- The internals of `Store`, `LinearUuidGenerator`, `Uuid.parse`, `Uuid.toString` and `Time` are not part of this model. The store is modelled by its contract: insertion in comparator order, after entries with an equal key. The generator is modelled as a counter over `[start, end]`. The parser is a parameter.
- `Comparators.TextOrderIsTotalPreorder`: `String.CASE_INSENSITIVE_ORDER` folds case over all of Unicode, but the model folds only the ASCII letters A–Z. The law is proved for that folding only.
- `Comparators.TextOrder`: a Dafny `string` is a sequence of Unicode scalar values, while Java compares UTF-16 code units. Characters outside the Basic Multilingual Plane therefore sort differently: Java orders `"！"` (U+FF01) after `"😀"` (U+1F600), whose first code unit is 0xD83D, and the model orders it before. By-text stores holding such characters are ordered by code point in the model.
- `Startup.TrimStoredId`: the model counts characters where Java counts UTF-16 code units. The two agree on every id text made of characters of the Basic Multilingual Plane.
- `Startup.ReplayRebuildsAddedUsers`: stated for rows stored by the insert statement with its quotes doubled (see "Findings"). For the statement as written, `Startup.AsWrittenStoresRowsWithoutQuotes` shows it stores the same rows only when no name or id text contains a quote. It also replays the rows in the order they were written, but the `SELECT` at `Model.java:97` has no `ORDER BY`, so the table does not promise that order. In another order the same users are restored and each store holds the same entries, but entries with equal keys may stand in a different order: two users with the same creation time, say, swap places in the by-time store. The lemma promises the exact stores only for rows returned in write order; nothing about other row orders is proved.
- What the insert statement does when a quote closes a literal early (a syntax error, so the write fails and the process exits, or further SQL, such as a second row) is not part of this model. `Startup.AsWrittenRow` returns `None` for it.
- `new User(...)`, `Time.fromMs` and `getLong` inside the row's `try` (`Model.java:109`) are taken not to throw. An unchecked exception from them would also reach the outer handler and exit. Those classes are not part of this model.
- `Comparators.TimeOrder`: that `Time.compareTo` orders times by their milliseconds, and returns 0 only for equal times, is an assumption about the `Time` class, which is not part of this model.
- `Generators.Make`: that `make()` refuses to issue past the end of its range, and that a refused call changes nothing, is an assumption about the unshown generator class. The modelled Java code never reaches that point in practice, because the range ends at `Integer.MAX_VALUE`.
- `Uuids.Compare`: ids are Java `int`s, modelled as unbounded `int`. `Integer.compare` performs no arithmetic, so no wrap-around can arise, and every id the generator issues lies in `[1, Integer.MAX_VALUE]`.
- Duplicate identifiers: the user table's `ID TEXT PRIMARY KEY` (`Model.java:122`) refuses a second row with the same id text, so in the program such an insert fails at `Model.java:151` and the process exits (`Model.java:154-157`) before any user store changes. The model leaves this to the `WriteOutcome` parameter, so `AddUser(m, u, Written)` is also allowed for an id that is already stored, which the program never reaches. `restoreUser`, `add(Conversation)` and `add(Message)` do not check identifiers, and the stores themselves accept duplicate keys.
- The class `ClientMain` and the unit test `ModelTest` are left out: they are CLI glue and a table-existence check.
- Concurrency and locking are left out: the source has none.

## Findings

| source | as written | input that shows it | evidently intended | confidence | as-written member | corrected member |
|---|---|---|---|---|---|---|
| src/codeu/chat/server/Model.java:149-150 | The user's name (and the id text) is pasted between quotes into the insert statement without doubling any quote it contains. | A user named `a''b` is stored as `a'b`, so a restart restores a different user (`Startup.AsWrittenAltersDoubledQuote`). A name `x'y` ends its literal early, so the statement is not that user's insert (`Startup.AsWrittenBreaksOnLoneQuote`). | Every quote is doubled, so the stored row holds the name exactly as given and replay rebuilds the same user. | not executed; follows the SQL rule that a quote inside a string literal is written twice | `Startup.AsWrittenRow` | `Startup.StoredRow` |

=== FILE: comparators.dfy ===
/** The three orderings the model builds its stores with: `UUID_COMPARE`
    on identifiers, `TIME_COMPARE` on timestamps and `STRING_COMPARE`
    (`String.CASE_INSENSITIVE_ORDER`) on display text, and the law every one
    of them obeys. */
module Comparators {
  import opened Wrappers
  import opened Uuids
  import opened Entities

  /** A Java comparator whose sign describes a total preorder: every value
      compares equal to itself, swapping arguments flips the sign, and
      "compares at most" is transitive.  Distinct values may compare equal. */
  ghost predicate TotalPreorder<K(!new)>(cmp: (K, K) -> int)
  {
    && (forall a :: cmp(a, a) == 0)
    && (forall a, b :: cmp(a, b) < 0 <==> cmp(b, a) > 0)
    && (forall a, b, c :: cmp(a, b) <= 0 && cmp(b, c) <= 0 ==> cmp(a, c) <= 0)
  }

  /** The by-id ordering: `UUID_COMPARE` on identifiers that are never null. */
  function IdOrder(a: Uuid, b: Uuid): (r: int)
    ensures r == 0 <==> a == b
    ensures a.id != b.id ==> (r < 0 <==> a.id < b.id)
  {
    Compare(Some(a), Some(b))
  }

  /** The by-time ordering: `TIME_COMPARE` delegates to `Time.compareTo`. */
  function TimeOrder(a: Time, b: Time): (r: int)
    ensures r < 0 <==> a.inMs < b.inMs
    ensures r == 0 <==> a == b
  {
    IntCompare(a.inMs, b.inMs)
  }

  /** Case folding of one character, restricted to ASCII letters. */
  function Fold(c: char): (f: char)
    ensures 'A' <= c <= 'Z' ==> 'a' <= f <= 'z'
  {
    if 'A' <= c <= 'Z' then (c as int + 32) as char else c
  }

  /** `String.CASE_INSENSITIVE_ORDER.compare(a, b)`: the folded difference of
      the first characters that differ after folding, otherwise the
      difference of the lengths. */
  function TextOrder(a: string, b: string): (r: int)
    decreases |a|
    ensures FoldedPrefix(a, b) || FoldedPrefix(b, a) ==> r == |a| - |b|
  {
    if |a| == 0 || |b| == 0 then |a| - |b|
    else if Fold(a[0]) != Fold(b[0]) then Fold(a[0]) as int - Fold(b[0]) as int
    else TextOrder(a[1..], b[1..])
  }

  /** The first position where the folded characters differ decides the
      order, by the difference of those folded characters: this is the
      lexicographic half of `String.CASE_INSENSITIVE_ORDER`, whatever the
      lengths of the strings. */
  lemma {:induction false} TextOrderFirstMismatch(a: string, b: string, i: nat)
    decreases i
    requires i < |a| && i < |b|
    requires forall j :: 0 <= j < i ==> Fold(a[j]) == Fold(b[j])
    requires Fold(a[i]) != Fold(b[i])
    ensures TextOrder(a, b) == Fold(a[i]) as int - Fold(b[i]) as int
  {
    if i > 0 {
      assert Fold(a[0]) == Fold(b[0]);
      forall j | 0 <= j < i - 1
        ensures Fold(a[1..][j]) == Fold(b[1..][j])
      {
        assert a[1..][j] == a[j + 1] && b[1..][j] == b[j + 1];
      }
      TextOrderFirstMismatch(a[1..], b[1..], i - 1);
    }
  }

  /** `a` matches the start of `b` letter for letter after case folding. */
  predicate FoldedPrefix(a: string, b: string)
    decreases |a|
  {
    |a| == 0 || (|b| > 0 && Fold(a[0]) == Fold(b[0]) && FoldedPrefix(a[1..], b[1..]))
  }

  /** Two strings are equal under `TextOrder` exactly when they agree letter
      for letter after case folding. */
  ghost predicate SameIgnoringCase(a: string, b: string)
  {
    |a| == |b| && forall i :: 0 <= i < |a| ==> Fold(a[i]) == Fold(b[i])
  }

  lemma {:induction false} TextOrderZeroIffSameIgnoringCase(a: string, b: string)
    decreases |a|
    ensures TextOrder(a, b) == 0 <==> SameIgnoringCase(a, b)
  {
    if |a| != 0 && |b| != 0 && Fold(a[0]) == Fold(b[0]) {
      TextOrderZeroIffSameIgnoringCase(a[1..], b[1..]);
      if SameIgnoringCase(a[1..], b[1..]) {
        forall i | 0 <= i < |a|
          ensures Fold(a[i]) == Fold(b[i])
        {
          if i > 0 {
            assert a[i] == a[1..][i - 1] && b[i] == b[1..][i - 1];
          }
        }
      }
      if SameIgnoringCase(a, b) {
        forall i | 0 <= i < |a| - 1
          ensures Fold(a[1..][i]) == Fold(b[1..][i])
        {
          assert a[1..][i] == a[i + 1];
          assert b[1..][i] == b[i + 1];
        }
      }
    } else if |a| != 0 && |b| != 0 {
      assert !SameIgnoringCase(a, b) by {
        assert Fold(a[0]) != Fold(b[0]);
      }
    }
  }

  lemma {:induction false} TextOrderReflexive(a: string)
    decreases |a|
    ensures TextOrder(a, a) == 0
  {
    if |a| != 0 {
      TextOrderReflexive(a[1..]);
    }
  }

  lemma {:induction false} TextOrderAntisymmetric(a: string, b: string)
    decreases |a|
    ensures TextOrder(a, b) == -TextOrder(b, a)
  {
    if |a| != 0 && |b| != 0 && Fold(a[0]) == Fold(b[0]) {
      TextOrderAntisymmetric(a[1..], b[1..]);
    }
  }

  lemma {:induction false} TextOrderTransitive(a: string, b: string, c: string)
    decreases |a|
    requires TextOrder(a, b) <= 0 && TextOrder(b, c) <= 0
    ensures TextOrder(a, c) <= 0
  {
    if |a| != 0 && |b| != 0 && |c| != 0 {
      if Fold(a[0]) == Fold(b[0]) && Fold(b[0]) == Fold(c[0]) {
        TextOrderTransitive(a[1..], b[1..], c[1..]);
      }
    }
  }

  /** `UUID_COMPARE` restricted to non-null identifiers is a total preorder. */
  lemma IdOrderIsTotalPreorder()
    ensures TotalPreorder(IdOrder)
  {
    forall a: Uuid, b: Uuid
      ensures IdOrder(a, b) < 0 <==> IdOrder(b, a) > 0
    {
      CompareAntisymmetric(Some(a), Some(b));
    }
    forall a: Uuid, b: Uuid, c: Uuid | IdOrder(a, b) <= 0 && IdOrder(b, c) <= 0
      ensures IdOrder(a, c) <= 0
    {
      CompareTransitive(Some(a), Some(b), Some(c));
    }
  }

  lemma TimeOrderIsTotalPreorder()
    ensures TotalPreorder(TimeOrder)
  {
  }

  /** The case-insensitive text order is a total preorder, though not an
      order: distinct strings may compare equal. */
  lemma TextOrderIsTotalPreorder()
    ensures TotalPreorder(TextOrder)
  {
    forall a: string
      ensures TextOrder(a, a) == 0
    {
      TextOrderReflexive(a);
    }
    forall a: string, b: string
      ensures TextOrder(a, b) < 0 <==> TextOrder(b, a) > 0
    {
      TextOrderAntisymmetric(a, b);
    }
    forall a: string, b: string, c: string | TextOrder(a, b) <= 0 && TextOrder(b, c) <= 0
      ensures TextOrder(a, c) <= 0
    {
      TextOrderTransitive(a, b, c);
    }
  }

  /** "alice" sorts before "Bob", and "Bob" ties with "BOB". */
  lemma TextOrderExamples()
    ensures TextOrder("alice", "Bob") < 0
    ensures TextOrder("Bob", "BOB") == 0
  {
    TextOrderZeroIffSameIgnoringCase("Bob", "BOB");
  }
}

=== FILE: entities.dfy ===
/** The entity records the model indexes (`codeu.chat.common.User`,
    `Conversation`, `Message`) and the timestamp type `codeu.chat.util.Time`.
    They are handed to the model fully formed and never change afterwards. */
module Entities {
  import opened Wrappers
  import opened Uuids

  /** A point in time as milliseconds since the epoch (`Time.fromMs` / `inMs`). */
  datatype Time = Time(inMs: int)

  datatype User = User(id: Uuid, name: string, creation: Time)

  datatype Conversation = Conversation(id: Uuid, owner: Uuid, creation: Time, title: string)

  datatype Message = Message(
    id: Uuid,
    next: Option<Uuid>,
    previous: Option<Uuid>,
    creation: Time,
    author: Uuid,
    content: string)

  // The keys each kind is indexed under, as function values for the stores.

  function UserId(u: User): Uuid { u.id }
  function UserCreation(u: User): Time { u.creation }
  function UserName(u: User): string { u.name }

  function ConversationId(c: Conversation): Uuid { c.id }
  function ConversationCreation(c: Conversation): Time { c.creation }
  function ConversationTitle(c: Conversation): string { c.title }

  function MessageId(m: Message): Uuid { m.id }
  function MessageCreation(m: Message): Time { m.creation }
  function MessageContent(m: Message): string { m.content }
}

=== FILE: generators.dfy ===
/** The identifier generator behind the user-generation marker
    (`codeu.chat.common.LinearUuidGenerator`): it issues the ids
    `start, start + 1, …, end` in turn, all in the lineage of one root, and
    refuses to issue past `end` rather than wrap around. */
module Generators {
  import opened Wrappers
  import opened Uuids

  datatype Generator = Generator(root: Option<Uuid>, next: int, end: int)

  /** `new LinearUuidGenerator(root, start, end)`. */
  function New(root: Option<Uuid>, start: int, end: int): Generator
  {
    Generator(root, start, end)
  }

  /** `make()`: the next identifier of the lineage and the advanced
      generator, or None once the range is exhausted. */
  function Make(g: Generator): (r: Option<(Uuid, Generator)>)
    ensures r.Some? <==> g.next <= g.end
    ensures r.Some? ==> r.value.0.root == g.root && r.value.0.id == g.next
    ensures r.Some? ==> r.value.1 == g.(next := g.next + 1)
  {
    if g.next <= g.end then Some((Uuid(g.root, g.next), g.(next := g.next + 1)))
    else None
  }

  /** `n` successive calls of `make()`: the identifiers issued, in order, and
      the final generator; None if one of the calls is refused. */
  function Issue(g: Generator, n: nat): Option<(seq<Uuid>, Generator)>
    decreases n
  {
    if n == 0 then Some(([], g))
    else
      match Make(g)
      case None => None
      case Some((u, g')) =>
        match Issue(g', n - 1)
        case None => None
        case Some((us, g'')) => Some(([u] + us, g''))
  }

  /** `n` calls succeed exactly when the range still holds `n` ids; they
      issue the consecutive ids `next, next + 1, …` under the generator's root. */
  lemma {:induction false} IssueConsecutive(g: Generator, n: nat)
    decreases n
    ensures Issue(g, n).Some? <==> n == 0 || g.next + n - 1 <= g.end
    ensures Issue(g, n).Some? ==>
      var (us, g') := Issue(g, n).value;
      && |us| == n
      && g' == g.(next := g.next + n)
      && forall i :: 0 <= i < n ==> us[i] == Uuid(g.root, g.next + i)
  {
    if n > 0 {
      var g1 := g.(next := g.next + 1);
      IssueConsecutive(g1, n - 1);
      if Issue(g, n).Some? {
        var (us, g') := Issue(g, n).value;
        var (vs, _) := Issue(g1, n - 1).value;
        assert us == [Uuid(g.root, g.next)] + vs;
        forall i | 0 < i < n
          ensures us[i] == Uuid(g.root, g.next + i)
        {
          assert us[i] == vs[i - 1];
        }
      }
    }
  }

  /** Identifiers issued by one generator are pairwise distinct, and each
      later one compares strictly above every earlier one under `UUID_COMPARE`. */
  lemma IssuedAreDistinctAndAscending(g: Generator, n: nat)
    requires Issue(g, n).Some?
    ensures |Issue(g, n).value.0| == n
    ensures forall i, j :: 0 <= i < j < |Issue(g, n).value.0| ==>
      Issue(g, n).value.0[i] != Issue(g, n).value.0[j]
      && Compare(Some(Issue(g, n).value.0[i]), Some(Issue(g, n).value.0[j])) < 0
  {
    IssueConsecutive(g, n);
  }

  /** A generator over the range [1, 1] issues one identifier and refuses the second. */
  lemma SingleIdRangeExhausts()
    ensures Issue(New(None, 1, 1), 1).Some?
    ensures Issue(New(None, 1, 1), 2).None?
  {
    IssueConsecutive(New(None, 1, 1), 2);
  }
}

=== FILE: model.dfy ===
/** The server's entity aggregate (`codeu.chat.server.Model`): for each of
    users, conversations and messages, three stores kept in lockstep (by id,
    by creation time, by text), plus the user-generation marker issued by a
    linear generator over the ids 1 … Integer.MAX_VALUE. */
module ServerModel {
  import opened Wrappers
  import opened Uuids
  import opened Entities
  import opened Comparators
  import opened Stores
  import opened Generators

  /** `Integer.MAX_VALUE`, the last id the user-generation generator issues. */
  const MaxInt: int := 0x7fff_ffff

  /** The three stores of one entity kind. */
  datatype Indices<V> = Indices(byId: Store<Uuid, V>, byTime: Store<Time, V>, byText: Store<string, V>)

  datatype Model = Model(
    users: Indices<User>,
    conversations: Indices<Conversation>,
    messages: Indices<Message>,
    userGenerations: Generator,
    currentUserGeneration: Uuid)

  /** What became of the row `add(User)` writes to the user table. */
  datatype WriteOutcome = Written | WriteFailed

  /** How `add(User)` ends: it returns with the user indexed; or the write
      failed and the process exits, in the state it had reached by then; or
      the generator could not issue a new generation and nothing changed. */
  datatype AddUserOutcome =
    | Added(model: Model)
    | ExitedAfterWriteFailure(model: Model)
    | GenerationsExhausted

  function NoEntries<V>(): Indices<V>
  {
    Indices(Empty(), Empty(), Empty())
  }

  /** Every store of the kind holds the same values, each filed under the key
      its store is ordered by, and each store is in its comparator's order. */
  ghost predicate Consistent<V>(ix: Indices<V>, id: V -> Uuid, time: V -> Time, text: V -> string)
  {
    && Values(ix.byTime.entries) == Values(ix.byId.entries)
    && Values(ix.byText.entries) == Values(ix.byId.entries)
    && KeyedBy(ix.byId, id) && KeyedBy(ix.byTime, time) && KeyedBy(ix.byText, text)
    && Sorted(ix.byId, IdOrder) && Sorted(ix.byTime, TimeOrder) && Sorted(ix.byText, TextOrder)
  }

  /** The model's invariant: all three kinds consistent, and the generation
      marker is the identifier the generator issued last. */
  ghost predicate Valid(m: Model)
  {
    && Consistent(m.users, UserId, UserCreation, UserName)
    && Consistent(m.conversations, ConversationId, ConversationCreation, ConversationTitle)
    && Consistent(m.messages, MessageId, MessageCreation, MessageContent)
    && m.userGenerations.root == None
    && m.userGenerations.end == MaxInt
    && m.currentUserGeneration == Uuid(None, m.userGenerations.next - 1)
  }

  /** Inserting one value into all three stores of its kind, under its id,
      its creation time and its text. */
  function Index<V>(ix: Indices<V>, id: Uuid, time: Time, text: string, v: V): (r: Indices<V>)
    ensures |r.byId.entries| == |ix.byId.entries| + 1
    ensures multiset(r.byId.entries) == multiset(ix.byId.entries) + multiset{(id, v)}
    ensures multiset(r.byTime.entries) == multiset(ix.byTime.entries) + multiset{(time, v)}
    ensures multiset(r.byText.entries) == multiset(ix.byText.entries) + multiset{(text, v)}
    ensures Values(r.byId.entries) == Values(ix.byId.entries) + multiset{v}
    ensures Values(r.byTime.entries) == Values(ix.byTime.entries) + multiset{v}
    ensures Values(r.byText.entries) == Values(ix.byText.entries) + multiset{v}
  {
    Indices(Insert(ix.byId, IdOrder, id, v), Insert(ix.byTime, TimeOrder, time, v), Insert(ix.byText, TextOrder, text, v))
  }

  /** Indexing a value under its own keys keeps its kind consistent. */
  lemma IndexKeepsConsistent<V>(ix: Indices<V>, id: V -> Uuid, time: V -> Time, text: V -> string, v: V)
    requires Consistent(ix, id, time, text)
    ensures Consistent(Index(ix, id(v), time(v), text(v), v), id, time, text)
  {
    IdOrderIsTotalPreorder();
    TimeOrderIsTotalPreorder();
    TextOrderIsTotalPreorder();
    InsertKeepsSorted(ix.byId, IdOrder, id(v), v);
    InsertKeepsSorted(ix.byTime, TimeOrder, time(v), v);
    InsertKeepsSorted(ix.byText, TextOrder, text(v), v);
    InsertKeepsKeyed(ix.byId, IdOrder, id, v);
    InsertKeepsKeyed(ix.byTime, TimeOrder, time, v);
    InsertKeepsKeyed(ix.byText, TextOrder, text, v);
  }

  /** The state right after construction, before any row is replayed: empty
      stores, and the generation marker set by the initial `make()`. */
  function Initial(): (m: Model)
    ensures m.currentUserGeneration == Uuid(None, 1)
    ensures m.users == NoEntries() && m.conversations == NoEntries() && m.messages == NoEntries()
    ensures m.userGenerations.next == 2
  {
    var made := Make(New(None, 1, MaxInt)).value;
    Model(NoEntries(), NoEntries(), NoEntries(), made.1, made.0)
  }

  lemma InitialIsValid()
    ensures Valid(Initial())
  {
  }

  /** m' has u filed once in each user store, under its id, creation time and
      name, and nothing else about the entities differs from m. */
  ghost predicate UserIndexed(m: Model, m': Model, u: User)
  {
    && multiset(m'.users.byId.entries) == multiset(m.users.byId.entries) + multiset{(u.id, u)}
    && multiset(m'.users.byTime.entries) == multiset(m.users.byTime.entries) + multiset{(u.creation, u)}
    && multiset(m'.users.byText.entries) == multiset(m.users.byText.entries) + multiset{(u.name, u)}
    && m'.conversations == m.conversations
    && m'.messages == m.messages
  }

  /** m' carries as its generation the next identifier m's generator issues,
      and its generator has moved on by exactly one. */
  ghost predicate GenerationAdvanced(m: Model, m': Model)
  {
    && m'.currentUserGeneration == Uuid(m.userGenerations.root, m.userGenerations.next)
    && m'.userGenerations == m.userGenerations.(next := m.userGenerations.next + 1)
  }

  /** `currentUserGeneration = userGenerations.make()`. */
  function NextGeneration(m: Model): (r: Option<Model>)
    ensures r.Some? <==> m.userGenerations.next <= m.userGenerations.end
    ensures r.Some? ==> GenerationAdvanced(m, r.value)
    ensures r.Some? ==> r.value.(userGenerations := m.userGenerations, currentUserGeneration := m.currentUserGeneration) == m
  {
    match Make(m.userGenerations)
    case None => None
    case Some((id, g)) => Some(m.(userGenerations := g, currentUserGeneration := id))
  }

  function IndexUser(m: Model, u: User): (r: Model)
    ensures UserIndexed(m, r, u)
    ensures r.userGenerations == m.userGenerations && r.currentUserGeneration == m.currentUserGeneration
  {
    m.(users := Index(m.users, u.id, u.creation, u.name, u))
  }

  /** `add(User)`: advance the generation, write the user's row, then file
      the user in all three user stores.  A failed write exits the process
      after the generation has moved and before any store is touched. */
  function AddUser(m: Model, u: User, write: WriteOutcome): (r: AddUserOutcome)
    ensures r.GenerationsExhausted? <==> m.userGenerations.next > m.userGenerations.end
    ensures r.ExitedAfterWriteFailure? <==> !r.GenerationsExhausted? && write == WriteFailed
    ensures !r.GenerationsExhausted? ==> GenerationAdvanced(m, r.model)
    ensures r.ExitedAfterWriteFailure? ==>
      r.model.users == m.users && r.model.conversations == m.conversations && r.model.messages == m.messages
    ensures r.Added? ==> UserIndexed(m, r.model, u)
  {
    match NextGeneration(m)
    case None => GenerationsExhausted
    case Some(m1) =>
      if write == WriteFailed then ExitedAfterWriteFailure(m1) else Added(IndexUser(m1, u))
  }

  /** `restoreUser(User)`: `add(User)` without the write.  None when the
      generator is exhausted. */
  function RestoreUser(m: Model, u: User): (r: Option<Model>)
    ensures r.Some? <==> m.userGenerations.next <= m.userGenerations.end
    ensures r.Some? ==> GenerationAdvanced(m, r.value) && UserIndexed(m, r.value, u)
  {
    match NextGeneration(m)
    case None => None
    case Some(m1) => Some(IndexUser(m1, u))
  }

  /** Restoring a user leaves the model exactly as a successfully written
      `add(User)` of the same user does, and fails exactly when it fails. */
  lemma RestoreIsAddWithoutWrite(m: Model, u: User)
    ensures RestoreUser(m, u).Some? <==> AddUser(m, u, Written).Added?
    ensures RestoreUser(m, u).Some? ==> AddUser(m, u, Written).model == RestoreUser(m, u).value
  {
  }

  /** `add(Conversation)`: files the conversation under its id, creation
      time and title; users, messages and the generation are untouched. */
  function AddConversation(m: Model, c: Conversation): (r: Model)
    ensures multiset(r.conversations.byId.entries) == multiset(m.conversations.byId.entries) + multiset{(c.id, c)}
    ensures multiset(r.conversations.byTime.entries) == multiset(m.conversations.byTime.entries) + multiset{(c.creation, c)}
    ensures multiset(r.conversations.byText.entries) == multiset(m.conversations.byText.entries) + multiset{(c.title, c)}
    ensures r.users == m.users && r.messages == m.messages
    ensures r.userGenerations == m.userGenerations && r.currentUserGeneration == m.currentUserGeneration
  {
    m.(conversations := Index(m.conversations, c.id, c.creation, c.title, c))
  }

  /** `add(Message)`: files the message under its id, creation time and
      content; users, conversations and the generation are untouched. */
  function AddMessage(m: Model, msg: Message): (r: Model)
    ensures multiset(r.messages.byId.entries) == multiset(m.messages.byId.entries) + multiset{(msg.id, msg)}
    ensures multiset(r.messages.byTime.entries) == multiset(m.messages.byTime.entries) + multiset{(msg.creation, msg)}
    ensures multiset(r.messages.byText.entries) == multiset(m.messages.byText.entries) + multiset{(msg.content, msg)}
    ensures r.users == m.users && r.conversations == m.conversations
    ensures r.userGenerations == m.userGenerations && r.currentUserGeneration == m.currentUserGeneration
  {
    m.(messages := Index(m.messages, msg.id, msg.creation, msg.content, msg))
  }

  /** `userGeneration()`: in a valid model, the identifier the generator
      issued last, in the null-rooted lineage. */
  function UserGeneration(m: Model): (r: Uuid)
    ensures Valid(m) ==> r == Uuid(None, m.userGenerations.next - 1)
  {
    m.currentUserGeneration
  }

  /** One call into the model's mutating API. */
  datatype Op =
    | AddUserOp(user: User, write: WriteOutcome)
    | RestoreUserOp(user: User)
    | AddConversationOp(conversation: Conversation)
    | AddMessageOp(message: Message)

  /** The state after one call, or None when the call does not return
      normally (the process exits, or the generator is exhausted). */
  function Apply(m: Model, op: Op): Option<Model>
  {
    match op
    case AddUserOp(u, w) => (match AddUser(m, u, w) case Added(m') => Some(m') case _ => None)
    case RestoreUserOp(u) => RestoreUser(m, u)
    case AddConversationOp(c) => Some(AddConversation(m, c))
    case AddMessageOp(msg) => Some(AddMessage(m, msg))
  }

  /** The calls in order; None as soon as one does not return normally. */
  function Run(m: Model, ops: seq<Op>): Option<Model>
    decreases |ops|
  {
    if ops == [] then Some(m)
    else
      match Apply(m, ops[0])
      case None => None
      case Some(m') => Run(m', ops[1..])
  }

  /** 1 for a call of `add(User)` or `restoreUser`, 0 otherwise. */
  function UserCall(op: Op): nat
  {
    if op.AddUserOp? || op.RestoreUserOp? then 1 else 0
  }

  /** How many of the calls are `add(User)` or `restoreUser`. */
  function UserCalls(ops: seq<Op>): nat
  {
    if ops == [] then 0 else UserCall(ops[0]) + UserCalls(ops[1..])
  }

  /** A restored (or successfully added) user keeps the invariant, moves
      the generation on by one and adds one user. */
  lemma RestoreUserKeepsValid(m: Model, u: User)
    requires Valid(m)
    requires RestoreUser(m, u).Some?
    ensures Valid(RestoreUser(m, u).value)
    ensures RestoreUser(m, u).value.currentUserGeneration.id == m.currentUserGeneration.id + 1
    ensures |RestoreUser(m, u).value.users.byId.entries| == |m.users.byId.entries| + 1
  {
    IndexKeepsConsistent(m.users, UserId, UserCreation, UserName, u);
  }

  /** Replacing one kind's stores by consistent ones keeps the invariant. */
  lemma ReplaceConversationsKeepsValid(m: Model, ix: Indices<Conversation>)
    requires Valid(m)
    requires Consistent(ix, ConversationId, ConversationCreation, ConversationTitle)
    ensures Valid(m.(conversations := ix))
  {
  }

  lemma ReplaceMessagesKeepsValid(m: Model, ix: Indices<Message>)
    requires Valid(m)
    requires Consistent(ix, MessageId, MessageCreation, MessageContent)
    ensures Valid(m.(messages := ix))
  {
  }

  lemma AddConversationKeepsValid(m: Model, c: Conversation)
    requires Valid(m)
    ensures Valid(AddConversation(m, c))
  {
    var ix := Index(m.conversations, c.id, c.creation, c.title, c);
    IndexKeepsConsistent(m.conversations, ConversationId, ConversationCreation, ConversationTitle, c);
    ReplaceConversationsKeepsValid(m, ix);
    assert AddConversation(m, c) == m.(conversations := ix);
  }

  lemma AddMessageKeepsValid(m: Model, msg: Message)
    requires Valid(m)
    ensures Valid(AddMessage(m, msg))
  {
    var ix := Index(m.messages, msg.id, msg.creation, msg.content, msg);
    IndexKeepsConsistent(m.messages, MessageId, MessageCreation, MessageContent, msg);
    ReplaceMessagesKeepsValid(m, ix);
    assert AddMessage(m, msg) == m.(messages := ix);
  }

  /** A successful `add(User)` keeps the invariant exactly as a restore does. */
  lemma AddUserKeepsValid(m: Model, u: User, w: WriteOutcome)
    requires Valid(m)
    requires AddUser(m, u, w).Added?
    ensures Valid(AddUser(m, u, w).model)
    ensures AddUser(m, u, w).model.currentUserGeneration.id == m.currentUserGeneration.id + 1
    ensures |AddUser(m, u, w).model.users.byId.entries| == |m.users.byId.entries| + 1
  {
    RestoreIsAddWithoutWrite(m, u);
    RestoreUserKeepsValid(m, u);
  }

  /** One call keeps the invariant; a user call advances the generation by
      one and adds one user, any other call leaves both alone. */
  lemma ApplyKeepsValid(m: Model, op: Op)
    requires Valid(m)
    requires Apply(m, op).Some?
    ensures Valid(Apply(m, op).value)
    ensures Apply(m, op).value.currentUserGeneration.id == m.currentUserGeneration.id + UserCall(op)
    ensures |Apply(m, op).value.users.byId.entries| == |m.users.byId.entries| + UserCall(op)
  {
    match op
    case AddUserOp(u, w) =>
      assert Apply(m, op) == Some(AddUser(m, u, w).model);
      AddUserKeepsValid(m, u, w);
    case RestoreUserOp(u) =>
      RestoreUserKeepsValid(m, u);
    case AddConversationOp(c) =>
      AddConversationKeepsValid(m, c);
    case AddMessageOp(msg) =>
      AddMessageKeepsValid(m, msg);
  }

  /** Any sequence of calls that returns normally keeps the three stores of
      every kind in lockstep, advances the generation once per user call,
      and adds exactly one user per user call. */
  lemma {:induction false} RunKeepsValid(m: Model, ops: seq<Op>)
    decreases |ops|
    requires Valid(m)
    requires Run(m, ops).Some?
    ensures Valid(Run(m, ops).value)
    ensures Run(m, ops).value.currentUserGeneration.id == m.currentUserGeneration.id + UserCalls(ops)
    ensures |Run(m, ops).value.users.byId.entries| == |m.users.byId.entries| + UserCalls(ops)
  {
    if ops != [] {
      ApplyKeepsValid(m, ops[0]);
      RunKeepsValid(Apply(m, ops[0]).value, ops[1..]);
    }
  }

  /** From a freshly constructed model, `userGeneration()` is the identifier
      issued by the last user call, or by the initial `make()` when there was
      none: the (1 + number of user calls)-th id of the null-rooted lineage.
      Every user filed by id is also filed by time and by name, and vice versa. */
  lemma GenerationCountsUserCalls(ops: seq<Op>)
    requires Run(Initial(), ops).Some?
    ensures UserGeneration(Run(Initial(), ops).value) == Uuid(None, 1 + UserCalls(ops))
    ensures var users := Run(Initial(), ops).value.users;
      forall u :: u in Values(users.byId.entries)
        <==> u in Values(users.byTime.entries) && u in Values(users.byText.entries)
  {
    InitialIsValid();
    RunKeepsValid(Initial(), ops);
  }

  lemma TimeExampleSecondInsert(a: User, b: User)
    ensures Insert(Store([(Time(300), a)]), TimeOrder, Time(100), b).entries
         == [(Time(100), b), (Time(300), a)]
  {
    var e1: seq<(Time, User)> := [(Time(300), a)];
    assert InsertionPoint(e1, TimeOrder, Time(100)) == 0;
    assert e1[..0] + [(Time(100), b)] + e1[0..] == [(Time(100), b), (Time(300), a)];
  }

  lemma TimeExampleThirdInsert(a: User, b: User, c: User)
    ensures Insert(Store([(Time(100), b), (Time(300), a)]), TimeOrder, Time(200), c).entries
         == [(Time(100), b), (Time(200), c), (Time(300), a)]
  {
    var e2: seq<(Time, User)> := [(Time(100), b), (Time(300), a)];
    assert e2[1..] == [(Time(300), a)];
    assert InsertionPoint(e2[1..], TimeOrder, Time(200)) == 0;
    assert InsertionPoint(e2, TimeOrder, Time(200)) == 1;
    assert e2[..1] + [(Time(200), c)] + e2[1..] == [(Time(100), b), (Time(200), c), (Time(300), a)];
  }

  /** Users created at 300, 100 and 200 ms, inserted in that order into a
      by-time store, are traversed as 100, 200, 300. */
  lemma TimeTraversalExample(a: User, b: User, c: User)
    requires a.creation == Time(300) && b.creation == Time(100) && c.creation == Time(200)
    ensures var s1 := Insert(Empty(), TimeOrder, a.creation, a);
      var s2 := Insert(s1, TimeOrder, b.creation, b);
      Insert(s2, TimeOrder, c.creation, c).entries == [(Time(100), b), (Time(200), c), (Time(300), a)]
  {
    var s1 := Insert(Empty(), TimeOrder, a.creation, a);
    assert InsertionPoint<Time, User>([], TimeOrder, Time(300)) == 0;
    assert s1 == Store([(Time(300), a)]);
    TimeExampleSecondInsert(a, b);
    var s2 := Insert(s1, TimeOrder, b.creation, b);
    assert s2 == Store([(Time(100), b), (Time(300), a)]);
    TimeExampleThirdInsert(a, b, c);
  }
}

=== FILE: sqlliterals.dfy ===
/** SQL string literals as the user table's `INSERT` statement uses them.
    Inside a quoted literal two consecutive quotes stand for one quote, and
    a lone quote ends the literal; whatever follows is read as more SQL. */
module SqlLiterals {
  import opened Wrappers

  const Quote: char := '\''

  /** Reads a string literal whose opening quote has already been consumed:
      its value and the text after its closing quote, or None when the text
      ends before the literal is closed. */
  function ReadLiteral(t: string): (r: Option<(string, string)>)
    decreases |t|
    ensures r.Some? ==> |r.value.1| < |t|
  {
    if t == [] then None
    else if t[0] == Quote && !(|t| >= 2 && t[1] == Quote) then Some(([], t[1..]))
    else
      var width := if t[0] == Quote then 2 else 1;
      var more := ReadLiteral(t[width..]);
      if more.None? then None else Some(([t[0]] + more.value.0, more.value.1))
  }

  /** The value read back from `field` written between two quotes and
      followed by `tail`, provided the literal closes exactly at the quote
      written after the field; None when the field's own quotes close it
      earlier or carry it past that quote. */
  function ReadBack(field: string, tail: string): Option<string>
  {
    var lit := ReadLiteral(field + [Quote] + tail);
    if lit.Some? && lit.value.1 == tail then Some(lit.value.0) else None
  }

  /** Text as a string literal must spell it: every quote doubled. */
  function Escape(s: string): (e: string)
    ensures |e| >= |s|
    ensures Quote !in s ==> e == s
  {
    if s == [] then []
    else (if s[0] == Quote then [Quote, Quote] else [s[0]]) + Escape(s[1..])
  }

  /** A literal may be followed by anything but another quote, which would
      turn its closing quote into half of a doubled one. */
  predicate ClosesCleanly(tail: string)
  {
    tail == [] || tail[0] != Quote
  }

  /** Reading over one ordinary character keeps it in the value. */
  lemma ReadPlainStep(c: char, rest: string, v: string, after: string)
    requires c != Quote && ReadLiteral(rest) == Some((v, after))
    ensures ReadLiteral([c] + rest) == Some(([c] + v, after))
  {
    assert ([c] + rest)[1..] == rest;
  }

  /** Reading over a doubled quote puts one quote into the value. */
  lemma ReadDoubledStep(rest: string, v: string, after: string)
    requires ReadLiteral(rest) == Some((v, after))
    ensures ReadLiteral([Quote, Quote] + rest) == Some(([Quote] + v, after))
  {
    assert ([Quote, Quote] + rest)[2..] == rest;
  }

  /** A lone quote closes the literal. */
  lemma ReadClosingQuote(tail: string)
    requires ClosesCleanly(tail)
    ensures ReadLiteral([Quote] + tail) == Some(([], tail))
  {
    assert ([Quote] + tail)[1..] == tail;
  }

  /** An escaped text reads back as itself, whatever follows its closing quote. */
  lemma {:induction false} EscapedReadsBack(s: string, tail: string)
    decreases |s|
    requires ClosesCleanly(tail)
    ensures ReadLiteral(Escape(s) + [Quote] + tail) == Some((s, tail))
  {
    if s == [] {
      assert Escape(s) + [Quote] + tail == [Quote] + tail;
      ReadClosingQuote(tail);
    } else {
      var e := Escape(s[1..]);
      var rest := e + [Quote] + tail;
      EscapedReadsBack(s[1..], tail);
      var head := if s[0] == Quote then [Quote, Quote] else [s[0]];
      calc {
        Escape(s) + [Quote] + tail;
        (head + e) + [Quote] + tail;
        { assert (head + e) + [Quote] + tail == head + (e + [Quote] + tail); }
        head + rest;
      }
      if s[0] == Quote {
        ReadDoubledStep(rest, s[1..], tail);
      } else {
        ReadPlainStep(s[0], rest, s[1..], tail);
      }
      assert [s[0]] + s[1..] == s;
    }
  }

  /** Escaped, every text survives the round trip through a literal. */
  lemma EscapedFieldReadsBack(s: string, tail: string)
    requires ClosesCleanly(tail)
    ensures ReadBack(Escape(s), tail) == Some(s)
  {
    EscapedReadsBack(s, tail);
  }

  /** `Long.toString(n)`: an optional minus sign, then decimal digits. */
  function DecimalText(n: int): string
    decreases if n < 0 then 1 - n else n
  {
    if n < 0 then "-" + DecimalText(-n)
    else if n < 10 then [('0' as int + n) as char]
    else DecimalText(n / 10) + [('0' as int + n % 10) as char]
  }
}

=== FILE: startup.dfy ===
/** Construction of the model from the persisted user table: every stored
    row is turned back into a user and filed through `restoreUser`, so no
    row is written again.  The SQL plumbing is reduced to the rows read. */
module Startup {
  import opened Wrappers
  import opened Uuids
  import opened Entities
  import opened ServerModel
  import opened SqlLiterals

  /** One row of the user table: the identifier's stored text, the creation
      time in milliseconds and the user's name. */
  datatype Row = Row(id: string, time: int, name: string)

  /** The user table as construction finds it. */
  datatype Table = Missing | Present(rows: seq<Row>)

  /** How `Uuid.parse` can fail: with an `IOException`, which the row's own
      handler catches, or with any other exception, which reaches the
      constructor's outer handler. */
  datatype ParseError = NotAUuid | UncheckedException

  /** Why construction ends the process instead of returning a model. */
  datatype StartupError =
    | StoredIdTooShort(id: string)
    | IdParseCrashed(id: string)
    | GenerationLimitReached

  /** The text after the id literal of the statement `add(User)` builds:
      the creation time, then the name between quotes, then the end. */
  function AfterIdLiteral(u: User, nameText: string): string
  {
    ", " + DecimalText(u.creation.inMs) + ", '" + nameText + "');"
  }

  /** The text after the name literal. */
  const AfterNameLiteral: string := ");"

  /** The row SQLite stores for the statement `add(User)` builds, with the
      identifier's text (its `toString()`, not part of this model) and the
      name pasted between quotes as they are.  None when a quote inside
      either text ends its literal early or runs it past its closing quote:
      the statement is then not this single-row insert. */
  function AsWrittenRow(u: User, idText: string): Option<Row>
  {
    var id := ReadBack(idText, AfterIdLiteral(u, u.name));
    var name := ReadBack(u.name, AfterNameLiteral);
    if id.Some? && name.Some? then Some(Row(id.value, u.creation.inMs, name.value)) else None
  }

  /** The same statement with every quote in both texts doubled. */
  function EscapedRow(u: User, idText: string): Option<Row>
  {
    var id := ReadBack(Escape(idText), AfterIdLiteral(u, Escape(u.name)));
    var name := ReadBack(Escape(u.name), AfterNameLiteral);
    if id.Some? && name.Some? then Some(Row(id.value, u.creation.inMs, name.value)) else None
  }

  /** The row `add(User)` is meant to store: the identifier's text, the
      creation time in milliseconds and the name, each exactly as given. */
  function StoredRow(u: User, idText: string): (r: Row)
    ensures EscapedRow(u, idText) == Some(r)
  {
    EscapedFieldReadsBack(idText, AfterIdLiteral(u, Escape(u.name)));
    EscapedFieldReadsBack(u.name, AfterNameLiteral);
    Row(idText, u.creation.inMs, u.name)
  }

  /** Without a quote in either text, the statement as written stores the
      intended row. */
  lemma AsWrittenStoresRowWithoutQuotes(u: User, idText: string)
    requires Quote !in u.name && Quote !in idText
    ensures AsWrittenRow(u, idText) == Some(StoredRow(u, idText))
  {
    assert AsWrittenRow(u, idText) == EscapedRow(u, idText);
  }

  /** As written, a user named `a''b` is stored as `a'b`: the doubled quote
      reads back as one, so restarting restores a different user. */
  lemma AsWrittenAltersDoubledQuote(u: User, idText: string)
    requires u.name == "a''b" && Quote !in idText
    ensures AsWrittenRow(u, idText).Some?
    ensures AsWrittenRow(u, idText).value.name == "a'b" != u.name
  {
    var closing := [Quote] + AfterNameLiteral;
    ReadClosingQuote(AfterNameLiteral);
    ReadPlainStep('b', closing, [], AfterNameLiteral);
    assert ['b'] + [] == "b" && [Quote] + "b" == "'b" && ['a'] + "'b" == "a'b";
    ReadDoubledStep(['b'] + closing, "b", AfterNameLiteral);
    ReadPlainStep('a', [Quote, Quote] + (['b'] + closing), "'b", AfterNameLiteral);
    assert u.name + [Quote] + AfterNameLiteral == ['a'] + ([Quote, Quote] + (['b'] + closing));
    assert Escape(idText) == idText;
    EscapedReadsBack(idText, AfterIdLiteral(u, u.name));
  }

  /** As written, a lone quote in a name ends the literal early, so the
      statement is not the insert of that user's row. */
  lemma AsWrittenBreaksOnLoneQuote(u: User, idText: string)
    requires u.name == "x'y"
    ensures AsWrittenRow(u, idText).None?
  {
    var rest := ['y', Quote] + AfterNameLiteral;
    ReadClosingQuote(rest);
    ReadPlainStep('x', [Quote] + rest, [], rest);
    assert u.name + [Quote] + AfterNameLiteral == ['x'] + ([Quote] + rest);
  }

  /** `uuidString.substring(6, uuidString.length() - 1)`: drops a six
      character prefix and the last character; None where Java throws. */
  function TrimStoredId(s: string): (r: Option<string>)
    ensures r.Some? <==> |s| >= 7
  {
    if |s| >= 7 then Some(s[6..|s| - 1]) else None
  }

  /** Trimming undoes a six-character prefix and a one-character suffix. */
  lemma TrimUndoesWrapping(prefix: string, body: string, close: string)
    requires |prefix| == 6 && |close| == 1
    ensures TrimStoredId(prefix + body + close) == Some(body)
  {
    var s := prefix + body + close;
    assert s[6..|s| - 1] == body;
  }

  /** The user a row describes once its identifier text has been parsed. */
  function RowUser(row: Row, id: Uuid): User
  {
    User(id, row.name, Time(row.time))
  }

  /** What one row does to the model being built: end construction, or
      carry on from a (possibly unchanged) model. */
  datatype RowEffect = Abort(error: StartupError) | Continue(model: Model)

  /** A row construction gets past without exiting: its id text trims, and
      parsing the trimmed text succeeds or throws an `IOException`. */
  predicate Readable(row: Row, parse: string -> Result<Uuid, ParseError>)
  {
    var text := TrimStoredId(row.id);
    text.Some? && parse(text.value) != Failure(UncheckedException)
  }

  /** The body of the constructor's loop for one row.  The trim runs before
      the row's own `try`, so a text too short to trim exits through the
      outer handler; so does any parse failure but an `IOException`, which
      skips the row and leaves the model as it was.  Every other row is
      restored. */
  function ReplayRow(m: Model, row: Row, parse: string -> Result<Uuid, ParseError>): (r: RowEffect)
    ensures |row.id| < 7 ==> r == Abort(StoredIdTooShort(row.id))
    ensures |row.id| >= 7 && parse(TrimStoredId(row.id).value) == Failure(UncheckedException) ==>
      r == Abort(IdParseCrashed(row.id))
    ensures |row.id| >= 7 && parse(TrimStoredId(row.id).value) == Failure(NotAUuid) ==> r == Continue(m)
    ensures (r.Abort? && !r.error.GenerationLimitReached?) <==> !Readable(row, parse)
    ensures |row.id| >= 7 && parse(TrimStoredId(row.id).value).Success? ==>
      var u := RowUser(row, parse(TrimStoredId(row.id).value).value);
      r == (if RestoreUser(m, u).Some? then Continue(RestoreUser(m, u).value) else Abort(GenerationLimitReached))
  {
    var text := TrimStoredId(row.id);
    if text.None? then Abort(StoredIdTooShort(row.id))
    else
      var parsed := parse(text.value);
      if parsed == Failure(NotAUuid) then Continue(m)
      else if parsed.Failure? then
        assert parsed.error.UncheckedException? by {
          assert parsed == Failure(parsed.error);
        }
        Abort(IdParseCrashed(row.id))
      else
        var restored := RestoreUser(m, RowUser(row, parsed.value));
        if restored.None? then Abort(GenerationLimitReached) else Continue(restored.value)
  }

  /** The constructor's loop over all rows, from state `m`.  When it exits
      for any reason but the generator, the reason names a row that cannot
      be read. */
  function Replay(m: Model, rows: seq<Row>, parse: string -> Result<Uuid, ParseError>): (r: Result<Model, StartupError>)
    decreases |rows|
    ensures r.Failure? && !r.error.GenerationLimitReached? ==>
      exists i :: 0 <= i < |rows| && rows[i].id == r.error.id && !Readable(rows[i], parse)
  {
    if rows == [] then Success(m)
    else
      var first := ReplayRow(m, rows[0], parse);
      if first.Abort? then Failure(first.error)
      else
        var r := Replay(first.model, rows[1..], parse);
        assert r.Failure? && !r.error.GenerationLimitReached? ==>
          exists i :: 1 <= i < |rows| && rows[i].id == r.error.id && !Readable(rows[i], parse) by {
          if r.Failure? && !r.error.GenerationLimitReached? {
            var j :| 0 <= j < |rows| - 1 && rows[1..][j].id == r.error.id && !Readable(rows[1..][j], parse);
            assert rows[1..][j] == rows[j + 1];
          }
        }
        r
  }

  /** `new Model()`: the initial state, then, if the user table exists, every
      row replayed; a missing table is created and nothing is replayed.  A
      model it returns always satisfies the model's invariant. */
  function Open(table: Table, parse: string -> Result<Uuid, ParseError>): (r: Result<Model, StartupError>)
    ensures r.Success? ==> Valid(r.value)
    ensures table.Missing? ==> r == Success(Initial())
  {
    match table
    case Missing =>
      InitialIsValid();
      Success(Initial())
    case Present(rows) =>
      var replayed := Replay(Initial(), rows, parse);
      if replayed.Success? then
        ReplayedModelIsValid(rows, parse);
        replayed
      else replayed
  }

  /** The users of the rows whose identifier trims and parses, in row order. */
  function Recovered(rows: seq<Row>, parse: string -> Result<Uuid, ParseError>): seq<User>
  {
    if rows == [] then []
    else
      var rest := Recovered(rows[1..], parse);
      var text := TrimStoredId(rows[0].id);
      if text.None? then rest
      else
        var parsed := parse(text.value);
        if parsed.Success? then [RowUser(rows[0], parsed.value)] + rest else rest
  }

  /** `restoreUser` applied to each user in turn. */
  function RestoreAll(m: Model, us: seq<User>): Option<Model>
    decreases |us|
  {
    if us == [] then Some(m)
    else
      match RestoreUser(m, us[0])
      case None => None
      case Some(m') => RestoreAll(m', us[1..])
  }

  ghost predicate RowsReadable(rows: seq<Row>, parse: string -> Result<Uuid, ParseError>)
  {
    forall i :: 0 <= i < |rows| ==> Readable(rows[i], parse)
  }

  /** When every row can be read, replay is `restoreUser` folded over the
      parseable rows in row order: rows whose id throws an `IOException` are
      skipped and nothing else is lost or reordered. */
  lemma {:induction false} ReplayIsRestoreFold(m: Model, rows: seq<Row>, parse: string -> Result<Uuid, ParseError>)
    decreases |rows|
    requires RowsReadable(rows, parse)
    ensures RestoreAll(m, Recovered(rows, parse)).Some? ==>
      Replay(m, rows, parse) == Success(RestoreAll(m, Recovered(rows, parse)).value)
    ensures RestoreAll(m, Recovered(rows, parse)).None? ==>
      Replay(m, rows, parse) == Failure(GenerationLimitReached)
  {
    if rows != [] {
      assert RowsReadable(rows[1..], parse) by {
        forall i | 0 <= i < |rows| - 1
          ensures Readable(rows[1..][i], parse)
        {
          assert rows[1..][i] == rows[i + 1];
        }
      }
      var rest := Recovered(rows[1..], parse);
      var text := TrimStoredId(rows[0].id).value;
      var parsed := parse(text);
      if parsed.Failure? {
        assert ReplayRow(m, rows[0], parse) == Continue(m);
        ReplayIsRestoreFold(m, rows[1..], parse);
      } else {
        var us := [RowUser(rows[0], parsed.value)] + rest;
        assert Recovered(rows, parse) == us;
        assert us[1..] == rest;
        var restored := RestoreUser(m, RowUser(rows[0], parsed.value));
        if restored.Some? {
          assert ReplayRow(m, rows[0], parse) == Continue(restored.value);
          ReplayIsRestoreFold(restored.value, rows[1..], parse);
        }
      }
    }
  }

  /** Replay handles the first row, then the rest from where it left off. */
  lemma ReplayFirstRow(m: Model, rows: seq<Row>, parse: string -> Result<Uuid, ParseError>)
    requires rows != []
    ensures var first := ReplayRow(m, rows[0], parse);
      && (first.Abort? ==> Replay(m, rows, parse) == Failure(first.error))
      && (first.Continue? ==> Replay(m, rows, parse) == Replay(first.model, rows[1..], parse))
  {
  }

  /** A row that cannot be read makes replay fail, wherever it stands. */
  lemma {:induction false} UnreadableRowAbortsReplay(
    m: Model, rows: seq<Row>, parse: string -> Result<Uuid, ParseError>, i: nat)
    decreases |rows|
    requires i < |rows| && !Readable(rows[i], parse)
    ensures Replay(m, rows, parse).Failure?
  {
    var first := ReplayRow(m, rows[0], parse);
    ReplayFirstRow(m, rows, parse);
    if i == 0 {
      assert first.Abort?;
    } else if first.Continue? {
      assert rows[1..][i - 1] == rows[i];
      UnreadableRowAbortsReplay(first.model, rows[1..], parse, i - 1);
    }
  }

  /** The restores of a sequence of users, as calls into the model. */
  function RestoreOps(us: seq<User>): (ops: seq<Op>)
    ensures |ops| == |us| && UserCalls(ops) == |us|
  {
    if us == [] then [] else [RestoreUserOp(us[0])] + RestoreOps(us[1..])
  }

  lemma {:induction false} RestoreAllIsRun(m: Model, us: seq<User>)
    decreases |us|
    ensures RestoreAll(m, us) == Run(m, RestoreOps(us))
  {
    if us != [] {
      assert RestoreOps(us)[0] == RestoreUserOp(us[0]);
      assert RestoreOps(us)[1..] == RestoreOps(us[1..]);
      match RestoreUser(m, us[0])
      case None =>
      case Some(m') =>
        RestoreAllIsRun(m', us[1..]);
    }
  }

  /** Replay succeeds only when every row can be read. */
  lemma ReplaySuccessMeansReadable(m: Model, rows: seq<Row>, parse: string -> Result<Uuid, ParseError>)
    requires Replay(m, rows, parse).Success?
    ensures RowsReadable(rows, parse)
  {
    forall i | 0 <= i < |rows|
      ensures Readable(rows[i], parse)
    {
      if !Readable(rows[i], parse) {
        UnreadableRowAbortsReplay(m, rows, parse, i);
      }
    }
  }

  /** A model that replay returns satisfies the model's invariant, holds one
      user per parseable row, and its generation is the identifier issued by
      the last restore (or by the initial `make()` if nothing was restored). */
  lemma ReplayedModelIsValid(rows: seq<Row>, parse: string -> Result<Uuid, ParseError>)
    requires Replay(Initial(), rows, parse).Success?
    ensures Valid(Replay(Initial(), rows, parse).value)
    ensures |Replay(Initial(), rows, parse).value.users.byId.entries| == |Recovered(rows, parse)|
    ensures UserGeneration(Replay(Initial(), rows, parse).value) == Uuid(None, 1 + |Recovered(rows, parse)|)
  {
    InitialIsValid();
    ReplaySuccessMeansReadable(Initial(), rows, parse);
    ReplayIsRestoreFold(Initial(), rows, parse);
    var us := Recovered(rows, parse);
    RestoreAllIsRun(Initial(), us);
    RunKeepsValid(Initial(), RestoreOps(us));
  }

  /** After start-up from a stored table and any run of calls that returns
      normally, `userGeneration()` counts the restored rows and the user
      calls together. */
  lemma ReplayThenRunCountsUserCalls(rows: seq<Row>, parse: string -> Result<Uuid, ParseError>, ops: seq<Op>)
    requires Replay(Initial(), rows, parse).Success?
    requires Run(Replay(Initial(), rows, parse).value, ops).Some?
    ensures UserGeneration(Run(Replay(Initial(), rows, parse).value, ops).value)
      == Uuid(None, 1 + |Recovered(rows, parse)| + UserCalls(ops))
  {
    var m := Replay(Initial(), rows, parse).value;
    ReplayedModelIsValid(rows, parse);
    RunKeepsValid(m, ops);
  }

  /** Successful `add(User)` calls, one per user. */
  function AddOps(us: seq<User>): (ops: seq<Op>)
    ensures |ops| == |us|
  {
    if us == [] then [] else [AddUserOp(us[0], Written)] + AddOps(us[1..])
  }

  /** The rows those calls store, given each identifier's text. */
  function StoredRows(us: seq<User>, idTexts: seq<string>): (rows: seq<Row>)
    requires |idTexts| == |us|
    ensures |rows| == |us|
    ensures forall i :: 0 <= i < |us| ==> rows[i] == StoredRow(us[i], idTexts[i])
  {
    if us == [] then [] else [StoredRow(us[0], idTexts[0])] + StoredRows(us[1..], idTexts[1..])
  }

  /** Without a quote in any name or id text, the statements as written
      store exactly these rows. */
  lemma AsWrittenStoresRowsWithoutQuotes(us: seq<User>, idTexts: seq<string>)
    requires |idTexts| == |us|
    requires forall i :: 0 <= i < |us| ==> Quote !in us[i].name && Quote !in idTexts[i]
    ensures forall i :: 0 <= i < |us| ==> AsWrittenRow(us[i], idTexts[i]) == Some(StoredRows(us, idTexts)[i])
  {
    forall i | 0 <= i < |us|
      ensures AsWrittenRow(us[i], idTexts[i]) == Some(StoredRows(us, idTexts)[i])
    {
      AsWrittenStoresRowWithoutQuotes(us[i], idTexts[i]);
    }
  }

  /** Replaying the row of a user whose stored id text trims and parses back
      to its id restores exactly that user. */
  lemma ReplayStoredRow(m: Model, u: User, idText: string, parse: string -> Result<Uuid, ParseError>)
    requires TrimStoredId(idText).Some? && parse(TrimStoredId(idText).value) == Success(u.id)
    ensures RestoreUser(m, u).None? ==> ReplayRow(m, StoredRow(u, idText), parse) == Abort(GenerationLimitReached)
    ensures RestoreUser(m, u).Some? ==> ReplayRow(m, StoredRow(u, idText), parse) == Continue(RestoreUser(m, u).value)
  {
    assert RowUser(StoredRow(u, idText), u.id) == u;
  }

  /** The first successful `add(User)` of a run acts as a restore. */
  lemma RunAddsFirstStep(m: Model, us: seq<User>)
    requires us != []
    ensures RestoreUser(m, us[0]).None? ==> Run(m, AddOps(us)).None?
    ensures RestoreUser(m, us[0]).Some? ==>
      Run(m, AddOps(us)) == Run(RestoreUser(m, us[0]).value, AddOps(us[1..]))
  {
    var ops := AddOps(us);
    assert ops[1..] == AddOps(us[1..]);
    RestoreIsAddWithoutWrite(m, us[0]);
    assert Apply(m, ops[0]) == RestoreUser(m, us[0]);
  }

  /** The first stored row of a replay restores its user. */
  lemma ReplayStoredFirstStep(
    m: Model, us: seq<User>, idTexts: seq<string>, parse: string -> Result<Uuid, ParseError>)
    requires us != [] && |idTexts| == |us|
    requires TrimStoredId(idTexts[0]).Some? && parse(TrimStoredId(idTexts[0]).value) == Success(us[0].id)
    ensures RestoreUser(m, us[0]).None? ==>
      Replay(m, StoredRows(us, idTexts), parse) == Failure(GenerationLimitReached)
    ensures RestoreUser(m, us[0]).Some? ==>
      Replay(m, StoredRows(us, idTexts), parse)
        == Replay(RestoreUser(m, us[0]).value, StoredRows(us[1..], idTexts[1..]), parse)
  {
    var rows := StoredRows(us, idTexts);
    assert rows[1..] == StoredRows(us[1..], idTexts[1..]);
    ReplayStoredRow(m, us[0], idTexts[0], parse);
  }

  /** Restart fidelity: replaying the rows stored for a sequence of
      successful `add(User)` calls, when every stored id text trims and
      parses back to the user's id, rebuilds exactly the model those calls
      produced (same stores, same generation), and fails exactly when they
      would. */
  lemma {:induction false} ReplayRebuildsAddedUsers(
    m: Model, us: seq<User>, idTexts: seq<string>, parse: string -> Result<Uuid, ParseError>)
    decreases |us|
    requires |idTexts| == |us|
    requires forall i :: 0 <= i < |us| ==>
      TrimStoredId(idTexts[i]).Some? && parse(TrimStoredId(idTexts[i]).value) == Success(us[i].id)
    ensures Run(m, AddOps(us)).Some? ==>
      Replay(m, StoredRows(us, idTexts), parse) == Success(Run(m, AddOps(us)).value)
    ensures Run(m, AddOps(us)).None? ==>
      Replay(m, StoredRows(us, idTexts), parse) == Failure(GenerationLimitReached)
  {
    if us != [] {
      RunAddsFirstStep(m, us);
      ReplayStoredFirstStep(m, us, idTexts, parse);
      var first := RestoreUser(m, us[0]);
      if first.Some? {
        forall i | 0 <= i < |us| - 1
          ensures TrimStoredId(idTexts[1..][i]).Some?
          ensures parse(TrimStoredId(idTexts[1..][i]).value) == Success(us[1..][i].id)
        {
          assert idTexts[1..][i] == idTexts[i + 1] && us[1..][i] == us[i + 1];
        }
        ReplayRebuildsAddedUsers(first.value, us[1..], idTexts[1..], parse);
      }
    }
  }
}

=== FILE: stores.dfy ===
/** The ordered multi-index store (`codeu.chat.util.store.Store`), seen
    through its contract: a sequence of key/value entries in the order the
    store's comparator defines, where several entries may share a key. */
module Stores {
  import opened Comparators

  datatype Store<K, V> = Store(entries: seq<(K, V)>)

  function Empty<K, V>(): Store<K, V>
  {
    Store([])
  }

  /** The values of a sequence of entries, in the same order. */
  function ValueSeq<K, V>(es: seq<(K, V)>): (vs: seq<V>)
    ensures |vs| == |es|
  {
    seq(|es|, i requires 0 <= i < |es| => es[i].1)
  }

  /** The multiset of values a store holds, whatever their keys. */
  function Values<K, V>(es: seq<(K, V)>): multiset<V>
  {
    multiset(ValueSeq(es))
  }

  /** Traversal follows the comparator: no entry's key compares above a later one. */
  ghost predicate Sorted<K, V>(s: Store<K, V>, cmp: (K, K) -> int)
  {
    Ordered(s.entries, cmp)
  }

  /** The first key compares at most every later key, and so on down the rest. */
  ghost predicate Ordered<K, V>(es: seq<(K, V)>, cmp: (K, K) -> int)
    decreases |es|
  {
    |es| <= 1 || ((forall j :: 0 < j < |es| ==> cmp(es[0].0, es[j].0) <= 0) && Ordered(es[1..], cmp))
  }

  /** Ordered means ordered pairwise: every key compares at most every later one. */
  lemma {:induction false} OrderedPairwise<K, V>(es: seq<(K, V)>, cmp: (K, K) -> int)
    decreases |es|
    ensures Ordered(es, cmp) <==> forall i, j :: 0 <= i < j < |es| ==> cmp(es[i].0, es[j].0) <= 0
  {
    if |es| > 1 {
      OrderedPairwise(es[1..], cmp);
      if forall i, j :: 0 <= i < j < |es| ==> cmp(es[i].0, es[j].0) <= 0 {
        forall i, j | 0 <= i < j < |es[1..]|
          ensures cmp(es[1..][i].0, es[1..][j].0) <= 0
        {
          assert es[1..][i] == es[i + 1] && es[1..][j] == es[j + 1];
        }
      }
      if Ordered(es, cmp) {
        forall i, j | 0 <= i < j < |es|
          ensures cmp(es[i].0, es[j].0) <= 0
        {
          if i > 0 {
            assert es[i] == es[1..][i - 1] && es[j] == es[1..][j - 1];
          }
        }
      }
    }
  }

  /** Every entry is filed under the key `key` extracts from its value. */
  ghost predicate KeyedBy<K, V>(s: Store<K, V>, key: V -> K)
  {
    forall i :: 0 <= i < |s.entries| ==> s.entries[i].0 == key(s.entries[i].1)
  }

  /** Where a new entry under key `k` goes: after every entry whose key
      compares at most `k` (so after equal keys), before the first greater one. */
  function InsertionPoint<K, V>(es: seq<(K, V)>, cmp: (K, K) -> int, k: K): (p: nat)
    ensures p <= |es|
    ensures forall j :: 0 <= j < p ==> cmp(es[j].0, k) <= 0
    ensures p < |es| ==> cmp(es[p].0, k) > 0
  {
    if es == [] || cmp(es[0].0, k) > 0 then 0
    else 1 + InsertionPoint(es[1..], cmp, k)
  }

  /** Placing one entry at position p adds exactly that entry, … */
  lemma SpliceAddsOne<K, V>(es: seq<(K, V)>, p: nat, e: (K, V))
    requires p <= |es|
    ensures multiset(es[..p] + [e] + es[p..]) == multiset(es) + multiset{e}
  {
    calc {
      multiset(es[..p] + [e] + es[p..]);
      multiset(es[..p]) + multiset{e} + multiset(es[p..]);
      { assert es == es[..p] + es[p..]; }
      multiset(es) + multiset{e};
    }
  }

  /** … so its values gain exactly that entry's value … */
  lemma SpliceAddsOneValue<K, V>(es: seq<(K, V)>, p: nat, e: (K, V))
    requires p <= |es|
    ensures Values(es[..p] + [e] + es[p..]) == Values(es) + multiset{e.1}
  {
    var vs := ValueSeq(es);
    assert ValueSeq(es[..p] + [e] + es[p..]) == vs[..p] + [e.1] + vs[p..];
    calc {
      multiset(vs[..p] + [e.1] + vs[p..]);
      multiset(vs[..p]) + multiset{e.1} + multiset(vs[p..]);
      { assert vs == vs[..p] + vs[p..]; }
      multiset(vs) + multiset{e.1};
    }
  }

  /** … and removing it again gives back the other entries in their order. */
  lemma SpliceKeepsOthers<K, V>(es: seq<(K, V)>, p: nat, e: (K, V))
    requires p <= |es|
    ensures (es[..p] + [e] + es[p..])[..p] + (es[..p] + [e] + es[p..])[p + 1..] == es
  {
    var rs := es[..p] + [e] + es[p..];
    assert rs[..p] == es[..p] && rs[p + 1..] == es[p..];
    assert es == es[..p] + es[p..];
  }

  /** `Store.insert(k, v)`: adds one entry and never rejects a duplicate key. */
  function Insert<K, V>(s: Store<K, V>, cmp: (K, K) -> int, k: K, v: V): (r: Store<K, V>)
    ensures |r.entries| == |s.entries| + 1
    ensures multiset(r.entries) == multiset(s.entries) + multiset{(k, v)}
    ensures Values(r.entries) == Values(s.entries) + multiset{v}
  {
    var p := InsertionPoint(s.entries, cmp, k);
    SpliceAddsOne(s.entries, p, (k, v));
    SpliceAddsOneValue(s.entries, p, (k, v));
    Store(s.entries[..p] + [(k, v)] + s.entries[p..])
  }

  /** The new entry sits at one position, and the entries around it are the
      old ones in their old order. */
  lemma InsertKeepsOthersInOrder<K, V>(s: Store<K, V>, cmp: (K, K) -> int, k: K, v: V)
    ensures var r := Insert(s, cmp, k, v).entries;
      exists i :: 0 <= i < |r| && r[i] == (k, v) && r[..i] + r[i + 1..] == s.entries
  {
    var p := InsertionPoint(s.entries, cmp, k);
    SpliceKeepsOthers(s.entries, p, (k, v));
  }

  /** Splicing an entry between the entries that compare at most its key
      and those it compares at most keeps an ordered sequence ordered. */
  lemma SpliceKeepsSorted<K, V>(es: seq<(K, V)>, cmp: (K, K) -> int, p: nat, k: K, v: V)
    requires p <= |es|
    requires Sorted(Store(es), cmp)
    requires forall j :: 0 <= j < p ==> cmp(es[j].0, k) <= 0
    requires forall j :: p <= j < |es| ==> cmp(k, es[j].0) <= 0
    ensures Sorted(Store(es[..p] + [(k, v)] + es[p..]), cmp)
  {
    var rs := es[..p] + [(k, v)] + es[p..];
    OrderedPairwise(es, cmp);
    OrderedPairwise(rs, cmp);
    forall i, j | 0 <= i < j < |rs|
      ensures cmp(rs[i].0, rs[j].0) <= 0
    {
      if j < p {
        assert rs[i] == es[i] && rs[j] == es[j];
      } else if j == p {
        assert rs[i] == es[i];
      } else if i == p {
        assert rs[j] == es[j - 1];
      } else if i < p {
        assert rs[i] == es[i] && rs[j] == es[j - 1];
      } else {
        assert rs[i] == es[i - 1] && rs[j] == es[j - 1];
      }
    }
  }

  /** Inserting into a store kept in comparator order keeps it in order,
      provided the comparator is a total preorder. */
  lemma InsertKeepsSorted<K(!new), V>(s: Store<K, V>, cmp: (K, K) -> int, k: K, v: V)
    requires TotalPreorder(cmp)
    requires Sorted(s, cmp)
    ensures Sorted(Insert(s, cmp, k, v), cmp)
  {
    var es := s.entries;
    var p := InsertionPoint(es, cmp, k);
    OrderedPairwise(es, cmp);
    if p < |es| {
      assert cmp(k, es[p].0) < 0;
      forall j | p <= j < |es|
        ensures cmp(k, es[j].0) <= 0
      {
        if j > p {
          assert cmp(es[p].0, es[j].0) <= 0;
        }
      }
    }
    SpliceKeepsSorted(es, cmp, p, k, v);
  }

  /** An entry filed under its value's own key keeps the store keyed that way. */
  lemma InsertKeepsKeyed<K, V>(s: Store<K, V>, cmp: (K, K) -> int, key: V -> K, v: V)
    requires KeyedBy(s, key)
    ensures KeyedBy(Insert(s, cmp, key(v), v), key)
  {
    var es := s.entries;
    var p := InsertionPoint(es, cmp, key(v));
    var rs := Insert(s, cmp, key(v), v).entries;
    assert rs == es[..p] + [(key(v), v)] + es[p..];
    forall i | 0 <= i < |rs|
      ensures rs[i].0 == key(rs[i].1)
    {
      if i < p {
        assert rs[i] == es[i];
      } else if i > p {
        assert rs[i] == es[i - 1];
      }
    }
  }
}

=== FILE: uuids.dfy ===
/** Identifiers of the chat server (`codeu.chat.util.Uuid`) and the
    comparator `UUID_COMPARE` that orders every by-id store of the model.

    A Uuid is a numeric id inside the lineage named by an optional parent
    (`root`).  A Java reference that may be null is an `Option<Uuid>`. */
module Uuids {
  import opened Wrappers

  datatype Uuid = Uuid(root: Option<Uuid>, id: int)

  /** `Integer.compare(x, y)`: -1, 0 or 1 according to the order of x and y. */
  function IntCompare(x: int, y: int): (r: int)
    ensures r < 0 <==> x < y
    ensures r == 0 <==> x == y
    ensures -1 <= r <= 1
  {
    if x < y then -1 else if x == y then 0 else 1
  }

  /** `UUID_COMPARE.compare(a, b)`.  The Java shortcut `a == b` is reference
      identity; on values it is equality, and the recursive path returns 0 on
      equal values as well, so both readings give the same result. */
  function Compare(a: Option<Uuid>, b: Option<Uuid>): (r: int)
    decreases a
    ensures -1 <= r <= 1
    ensures r == 0 <==> a == b
    ensures a.None? && b.Some? ==> r == -1
    ensures a.Some? && b.None? ==> r == 1
    ensures a.Some? && b.Some? && a.value.id != b.value.id ==> (r < 0 <==> a.value.id < b.value.id)
  {
    if a == b then 0
    else if a.None? && b.Some? then -1
    else if a.Some? && b.None? then 1
    else
      var order := IntCompare(a.value.id, b.value.id);
      if order == 0 then Compare(a.value.root, b.value.root) else order
  }

  /** Swapping the arguments flips the sign of the comparison. */
  lemma {:induction false} CompareAntisymmetric(a: Option<Uuid>, b: Option<Uuid>)
    decreases a
    ensures Compare(a, b) == -Compare(b, a)
  {
    if a != b && a.Some? && b.Some? && a.value.id == b.value.id {
      CompareAntisymmetric(a.value.root, b.value.root);
    }
  }

  /** The comparison is transitive: a <= b and b <= c give a <= c. */
  lemma {:induction false} CompareTransitive(a: Option<Uuid>, b: Option<Uuid>, c: Option<Uuid>)
    decreases a
    requires Compare(a, b) <= 0 && Compare(b, c) <= 0
    ensures Compare(a, c) <= 0
  {
    if a != b && b != c && a != c && a.Some? {
      assert b.Some? && c.Some?;
      if a.value.id == c.value.id {
        assert a.value.id == b.value.id == c.value.id;
        CompareTransitive(a.value.root, b.value.root, c.value.root);
      }
    }
  }

  /** The lineage path of an identifier: its own id, then its parent's, and so
      on up to the outermost root; null has the empty path. */
  function Path(a: Option<Uuid>): (p: seq<int>)
    ensures |p| == 0 <==> a.None?
  {
    match a
    case None => []
    case Some(u) => [u.id] + Path(u.root)
  }

  /** Plain lexicographic order on integer sequences, the empty one lowest. */
  function LexCompare(p: seq<int>, q: seq<int>): int
  {
    if p == [] && q == [] then 0
    else if p == [] then -1
    else if q == [] then 1
    else if p[0] != q[0] then IntCompare(p[0], q[0])
    else LexCompare(p[1..], q[1..])
  }

  /** `UUID_COMPARE` is exactly the lexicographic order of lineage paths:
      the own id decides first, the parent only on a tie, null lowest. */
  lemma {:induction false} CompareIsLexicographicOnPaths(a: Option<Uuid>, b: Option<Uuid>)
    decreases a
    ensures Compare(a, b) == LexCompare(Path(a), Path(b))
  {
    match a
    case None =>
    case Some(u) =>
      match b
      case None =>
      case Some(w) =>
        assert Path(a)[1..] == Path(u.root);
        assert Path(b)[1..] == Path(w.root);
        if u.id == w.id {
          CompareIsLexicographicOnPaths(u.root, w.root);
        }
  }

  /** Distinct identifiers have distinct lineage paths. */
  lemma PathInjective(a: Option<Uuid>, b: Option<Uuid>)
    requires Path(a) == Path(b)
    ensures a == b
  {
    CompareIsLexicographicOnPaths(a, b);
    LexCompareReflexive(Path(a));
  }

  lemma {:induction false} LexCompareReflexive(p: seq<int>)
    ensures LexCompare(p, p) == 0
  {
    if p != [] {
      LexCompareReflexive(p[1..]);
    }
  }
}

=== FILE: wrappers.dfy ===
/** Failure-carrying wrappers used across the model: `Option` stands for a
    Java reference that may be null, `Result` for an operation that may throw. */
module Wrappers {

  datatype Option<+T> = None | Some(value: T)

  datatype Result<+R, +E> = Success(value: R) | Failure(error: E)
}
